=== FILE: README.md ===
# Wired: a verified model of a reflective test-wiring container

`Wired` is a small test fixture container. A test hands it stubs (real
implementation objects) and asks it for mocks of the types they depend on.
Whenever something new is registered the container wires it by reflection:

- **push phase**: the newcomer's setters receive whatever is already
  registered for their parameter types;
- **pull phase**: the setters of existing implementations receive the
  newcomer.

At the end of set-up the container can check two things. The completeness
pass checks that every real implementation has all its dependency fields
filled. The necessity pass checks that every mock was consumed by some
setter.

This project models that container in Dafny as pure functions over an
immutable state. Reflection is replaced by a finite *type universe*.

- `universe.dfy` (`TypeUniverse`) describes the types.
  - A `TypeInfo` holds a type's interface flag, simple name, superclass,
    declared interfaces, public methods and declared fields, indexed by
    `TypeId`.
  - An object is an `Obj(id, cls)`.
  - The setter-shape predicates `IsSetter` and `IsSetterForType` model
    `isSetter` and `isSetterForType`.
- `characteristic.dfy` (`Characteristic`) models `characteristicInterfacesOf`:
  the declared interfaces, less those declared by any ancestor superclass,
  less the `…Listener` ones.
- `registry.dfy` (`Registry`) holds the state and its registration
  operations.
  - The state is `Container(instances, implementations, injected, log)`.
  - The registration operations are `register`, `registerMock`,
    `registerImplementation`, `ensureMockExisits`, the two-step lookup and
    `get`.
  - `Valid` is the registry invariant that every public operation keeps.
- `wiring.dfy` (`Wiring`) is the wiring engine.
  - It covers the push phase, the pull phase (`wireInstancesWithType`),
    `wireStub`, `wireMock`, `wireMocks` and `wire`.
  - Invoking a setter appends a `Call(target, setter, argument)` to the
    log and adds the parameter type to `injected`, as `set` does.
- `verification.dfy` (`Verification`) models the completeness pass, the
  necessity pass and `verifyImplementationWiring`.
- `lifecycle.dfy` (`Lifecycle`) covers the container's whole life.
  - Public calls are values of `Op`.
  - `Run` executes a sequence of them.
  - `Construct` models the constructor: the configuration's `init` calls,
    then the exemption that counts every role bound so far as injected.
- `properties.dfy` (`Properties`) states results that relate several calls.
  It covers idempotent mocking, the behaviour listed below,
  two-way wiring of two stubs, and when the necessity pass does and does not
  report a mock.

Java exceptions become `Err(Error)` values of a `Result`. The verification
passes return an `Outcome` (`Pass` or `Fail(error)`). The mocking policy
(`Config.mock`, `Config.isMock`), object construction (`instantiate`) and
field reads (`FieldValues`) are parameters, since their behaviour lies
outside the container.

Java iterates over an `IdentityHashMap`, a `HashSet` and `getMethods()`, so
its iteration order is unspecified. The model fixes one order:

- entries by ascending type id;
- characteristic interfaces in declaration order;
- methods in listed order.

Contracts that set the log equal to a sequence (`WireInstancesWithType`,
`PullEach`, `WireInstancesWithImplementation`, `WireStub`, `WireMock`,
`WireMocks`) hold for this fixed order only. The statements about which
calls are made, whatever the order, are the membership lemmas
`PullPhaseCalls`, `WireStubCalls`, `WireMockCalls` and `WireMocksCalls`.

## Behaviour worth knowing

These facts follow from the code as written in
`src/se/jbee/wired/Wired.java`:

- **Orphaned mocks.** `registerImplementation` rebinds each characteristic
  interface to the new stub's class (lines 184-186) without removing what
  was stored under that interface. A mock stored under interface `I` stays
  in `instances` once a stub claims `I`, but no role resolves to it any
  more (`MockOrphanedByStub`).
- **The first failure ends verification.** `verifyImplementationWiring`
  calls the completeness pass and then the necessity pass (lines 334-337);
  an exception from the first means the second never runs
  (`VerifyImplementationWiring`).
- **Mocking a stubbed class returns the stub.** `ensureMockExisits` first
  looks the type up in `instances` (lines 156-157) and creates a mock only
  when nothing is stored there. When the type is the concrete class of a
  registered stub, `wireMock` returns that stub (`MockOfStubbedClassIsStub`).
  It fails only when the type is unstored but bound to a different type
  (`WireMock`).
- **`wire(Class...)` depends on argument order.** `wire(Impl, I)`, with
  `I` a characteristic interface of `Impl`, fails: the stub claims `I`
  (lines 184-186), and mocking `I` then meets a binding to another type
  (lines 171-172). `wire(I, Impl)` succeeds, the stub taking `I` over
  (`ClassThenInterfaceConflicts`, `InterfaceThenClassWires`).
- **Only declared fields are checked.** The completeness pass reads
  `getDeclaredFields()` of the object's own class (line 346); inherited
  fields are not inspected.

## Model

| member | source | states |
|---|---|---|
| TypeUniverse.IsSetter | src/se/jbee/wired/Wired.java:259-261 | a setter is a method whose name starts with "set", with exactly one parameter and a void return |
| TypeUniverse.IsSetterForType | src/se/jbee/wired/Wired.java:255-257 | a setter for a type is a setter whose single parameter type is identical to that type |
| Characteristic.InheritedInterfaces | src/se/jbee/wired/Wired.java:192-198 | the interfaces declared by the superclasses above a class, collected by walking the superclass chain (its meaning is stated by InheritedInterfacesSpec) |
| Characteristic.InheritedInterfacesSpec | src/se/jbee/wired/Wired.java:192-198 | the superclass walk removes exactly the interfaces that some proper ancestor superclass declares |
| Characteristic.CharacteristicInterfaces | src/se/jbee/wired/Wired.java:189-206 | every characteristic interface is a directly declared interface type of the class and not a listener |
| Characteristic.CharacteristicInterfacesSpec | src/se/jbee/wired/Wired.java:189-206 | an interface is characteristic iff the class declares it, no ancestor superclass declares it, and its simple name does not end in "Listener" |
| Characteristic.CharacteristicOrder | src/se/jbee/wired/Wired.java:184-186 | the order in which interfaces are visited lists each characteristic interface exactly once and nothing else |
| Registry.ImplementationFor | src/se/jbee/wired/Wired.java:141-153 | `getImplementationFor`, built on `getInstanceFor` (`InstanceFor`): a role's instance is found exactly when the role is bound and its implementation type is stored, and it is `instances[implementations[role]]` |
| Registry.ResolvesIffBound | src/se/jbee/wired/Wired.java:141-153 | under the registry invariant a role resolves exactly when it is bound |
| Registry.Get | src/se/jbee/wired/Wired.java:123-129 | `get` fails with MissingWiring(role) exactly when the lookup is absent, else returns the resolved instance |
| Registry.RegisterMock | src/se/jbee/wired/Wired.java:164-175 | `registerMock`, through `register` (`Register`): fails with RoleConflict iff the type is bound to a different type; otherwise it sets only `instances[T]` to the mock and `implementations[T]` to `T` |
| Registry.RegisterMockValid | src/se/jbee/wired/Wired.java:169-175 | registering a mock keeps the registry invariant |
| Registry.RegisterImplementation | src/se/jbee/wired/Wired.java:177-187 | fails with DuplicateRegistration iff the class is bound; otherwise it stores the object under its class and binds the class and each characteristic interface to the class, and no other key changes |
| Registry.RegisterImplementationValid | src/se/jbee/wired/Wired.java:177-187 | registering a stub whose class is not an interface keeps the registry invariant |
| Registry.EnsureMock | src/se/jbee/wired/Wired.java:155-162 | an already stored instance is returned with the state unchanged; otherwise a fresh mock is registered, failing exactly on a role conflict |
| Registry.EnsureMockIdempotent | src/se/jbee/wired/Wired.java:155-162 | a second call returns the same object and state and never consults the mocking policy |
| Wiring.Invoke | src/se/jbee/wired/Wired.java:246-253 | a setter call is logged and its parameter type becomes injected; the maps do not change |
| Wiring.InvokeAll | src/se/jbee/wired/Wired.java:246-253 | a batch of setter calls is logged in order and injects exactly their parameter types |
| Wiring.PushCalls | src/se/jbee/wired/Wired.java:209-216 | the push phase calls exactly the setters of the new object whose parameter type resolves, with the resolved instance |
| Wiring.OfferCalls | src/se/jbee/wired/Wired.java:237-241 | an entry is offered the new instance on exactly its setters for the role |
| Wiring.PullCalls | src/se/jbee/wired/Wired.java:234-243 | every call of the pull-phase scan hands over the role's instance through a setter for exactly that role (its full meaning is stated by PullCallsSpec) |
| Wiring.PullCallsSpec | src/se/jbee/wired/Wired.java:232-244 | a pull call is exactly a setter for the role, on an instance stored under a non-interface key, given the role's instance |
| Wiring.NoOfferCalls | src/se/jbee/wired/Wired.java:237-241 | an object without a setter for the role is offered nothing |
| Wiring.NoPullCalls | src/se/jbee/wired/Wired.java:234-243 | when no instance under a non-interface key has a setter for the role, the pull phase calls nothing |
| Wiring.WireInstancesWithType | src/se/jbee/wired/Wired.java:232-244 | fails with MissingWiring iff the role does not resolve; otherwise the maps stay unchanged and the role becomes injected iff some setter was called |
| Wiring.PullPhaseInjects | src/se/jbee/wired/Wired.java:232-253 | one pull phase injects exactly the parameter types of the setters it called |
| Wiring.PullPhaseCalls | src/se/jbee/wired/Wired.java:232-244 | the calls one pull phase makes are exactly the pull calls for the role |
| Wiring.PullEach | src/se/jbee/wired/Wired.java:217-220 | pull phases run role by role; the run fails iff some role does not resolve, injects only those roles, and injects exactly the parameter types of the setters it called |
| Wiring.PullLogSpec | src/se/jbee/wired/Wired.java:217-220 | the calls of the pull phases are exactly the pull calls of one of the roles |
| Wiring.PullOrder | src/se/jbee/wired/Wired.java:217-220 | the pull phases visit exactly the stub's roles: its characteristic interfaces and its own class |
| Wiring.WireInstancesWithImplementation | src/se/jbee/wired/Wired.java:208-221 | wiring a registered stub fails iff one of its roles does not resolve; it changes neither map, injects only roles that resolve, and injects exactly the parameter types of the push and pull setters it called |
| Wiring.StubWiringLogSpec | src/se/jbee/wired/Wired.java:208-221 | a stub's wiring calls are its push calls and the pull calls that offer it under one of its roles |
| Wiring.WireStub | src/se/jbee/wired/Wired.java:84-92 | fails with DuplicateRegistration iff the class is bound; otherwise it keeps the invariant, every role of the stub resolves to it, and `injected` grows by exactly the parameter types of the setters it called |
| Wiring.WireStubCalls | src/se/jbee/wired/Wired.java:89-90 | the calls `wireStub` makes are exactly the stub's push calls and the pull calls offering it under its roles |
| Wiring.WireMock | src/se/jbee/wired/Wired.java:94-98 | fails with RoleConflict iff the type is unstored but bound; otherwise it returns the stored instance or a fresh mock, changes only that entry, and injects the type iff some setter took it |
| Wiring.WireMockCalls | src/se/jbee/wired/Wired.java:228-230 | the calls `wireMock` makes are exactly the pull calls for the mocked type |
| Wiring.EnsureMockStep | src/se/jbee/wired/Wired.java:155-175 | one `ensureMockExisits` keeps the invariant and changes exactly the mocked type's entries |
| Wiring.EnsureMocks | src/se/jbee/wired/Wired.java:101-103 | creating a batch of mocks stores every type, keeps existing entries, and stores a new entry only as that type's mock |
| Wiring.EnsureMocksValid | src/se/jbee/wired/Wired.java:101-103 | creating a batch of mocks keeps the registry invariant |
| Wiring.EnsureMocksFails | src/se/jbee/wired/Wired.java:101-103 | the batch fails iff one of its types is unstored but already bound |
| Wiring.WireMocks | src/se/jbee/wired/Wired.java:100-107 | all mocks are created before any is wired; it fails iff some type is unstored but bound, and otherwise keeps the invariant and existing entries and injects exactly the parameter types of the setters it called |
| Wiring.WireMocksCalls | src/se/jbee/wired/Wired.java:104-106 | each pull phase of the batch sees every mock of the batch: the calls are exactly the pull calls for the batch types |
| Wiring.Wire | src/se/jbee/wired/Wired.java:109-115 | an interface is mocked and a class is instantiated and stubbed; it fails exactly on a conflict, a duplicate or a failed construction, raising only those errors for `t`, and on success injects exactly the parameter types of the setters it called |
| Wiring.WireWires | src/se/jbee/wired/Wired.java:109-115 | a successful `wire` of an interface runs its pull phase with what the interface resolves to; of a class, the new instance resolves under all its roles and its push and pull calls are made |
| Wiring.WireMockInjects | src/se/jbee/wired/Wired.java:94-98 | `wireMock` injects exactly the parameter types of the setters its pull phase called |
| Wiring.WireAll | src/se/jbee/wired/Wired.java:117-121 | wiring no types changes nothing; a failure of the first `wire` is the result, and every failure is a conflict, duplicate or failed construction for one of the types; on success it keeps the invariant, stores each type, keeps existing entries, and injects exactly the parameter types of the setters called |
| Wiring.WireStubBean | src/se/jbee/wired/Wired.java:84-92 | a `Class` argument is wired and yields null, failing exactly when `wire` would and storing the type on success; an object is stubbed, resolves under all its roles, is pushed into and pulled from, and is returned, failing iff its class is bound; either way `injected` grows by exactly the called setters' parameter types |
| Verification.NullDependency | src/se/jbee/wired/Wired.java:346-355 | finds a non-static, non-collection field whose value is null exactly when one exists |
| Verification.CheckSupplied | src/se/jbee/wired/Wired.java:343-358 | the scan passes iff no entry in the scanned range misses a dependency, and on failure names the owner, field and field type of a missing one |
| Verification.VerifySupplied | src/se/jbee/wired/Wired.java:342-359 | the completeness pass fails iff some non-interface-keyed non-mock entry has a null non-static non-collection declared field |
| Verification.CheckMocks | src/se/jbee/wired/Wired.java:365-370 | the scan passes iff no entry in the scanned range is an unused mock, and on failure names one |
| Verification.VerifyMocksAreRequired | src/se/jbee/wired/Wired.java:364-371 | the necessity pass fails iff some stored mock's key was never injected, and names such a key |
| Verification.VerifyImplementationWiring | src/se/jbee/wired/Wired.java:334-337 | passes iff both passes pass; a completeness failure throws a MissingDependency naming a missing field, and otherwise a failure is an UnusedMock naming an unused mock |
| Lifecycle.Step | src/se/jbee/wired/Wired.java:84-129 | each public call keeps the invariant, never replaces or removes a stored instance, never shrinks `injected`, and only appends to the log |
| Lifecycle.Run | src/se/jbee/wired/Wired.java:62-66 | over any sequence of public calls `injected` only grows, stored instances are never overwritten, and the invariant holds |
| Lifecycle.Construct | src/se/jbee/wired/Wired.java:74-82 | after construction every bound role, and so every stored type, counts as injected |
| Lifecycle.InitRolesExempt | src/se/jbee/wired/Wired.java:74-82 | a type bound during init is never reported as an unused mock, whatever the test does later |
| Properties.WireMockTwice | src/se/jbee/wired/Wired.java:94-98 | `wireMock` twice returns the same object and leaves the maps as the first call left them |
| Properties.MockOfStubbedClassIsStub | src/se/jbee/wired/Wired.java:155-161 | mocking a concrete class that has a stub returns the stub and stores no mock |
| Properties.SharedInterfaceRebound | src/se/jbee/wired/Wired.java:184-186 | a second stub sharing a characteristic interface takes that role over; the first stays under its class |
| Properties.MockOrphanedByStub | src/se/jbee/wired/Wired.java:184-186 | a mock under an interface that a stub then claims stays stored, but no role resolves to it |
| Properties.MocksAreLeaves | src/se/jbee/wired/Wired.java:223-235 | an object stored only under interface keys never receives a pull-phase call |
| Properties.LaterStubWiresBothWays | src/se/jbee/wired/Wired.java:208-221 | when two stubs have setters for each other's classes, registering the second calls both setters with the right counterpart |
| Properties.PulledIntoEarlierStub | src/se/jbee/wired/Wired.java:232-244 | the pull phase for a stub's class reaches an earlier stub that has a setter for it |
| Properties.ConsumedMockNotReported | src/se/jbee/wired/Wired.java:364-371 | when a stored implementation has a setter for `t`, `wireMock(t)` sets the instance `t` resolves to into it (the fresh mock when `t` was unbound), so `t` counts as injected and is never reported as unused |
| Properties.PushedMockNotReported | src/se/jbee/wired/Wired.java:208-216 | when a role is bound before a stub with a setter for it is registered, the stub's push phase sets the role's instance into it, so the role counts as injected and is never reported as unused |
| Properties.ClassThenInterfaceConflicts | src/se/jbee/wired/Wired.java:109-121 | `wire(Impl, I)` with `I` a characteristic interface of `Impl`, both unbound, fails with RoleConflict(I, Impl): the stub claims `I` before `I` is mocked |
| Properties.InterfaceThenClassWires | src/se/jbee/wired/Wired.java:109-121 | `wire(I, Impl)` in that order succeeds |
| Properties.MockUnboundInterface | src/se/jbee/wired/Wired.java:109-111 | `wire` of an unbound interface succeeds, keeps the invariant and binds only that interface, to itself |
| Properties.WireSingle | src/se/jbee/wired/Wired.java:117-121 | `wire(Class...)` of one unbound constructible class succeeds |
| Properties.UnconsumedMockReported | src/se/jbee/wired/Wired.java:364-371 | a mock of an interface that no stored implementation has a setter for makes the necessity pass fail |

## Left out

- Reflection itself is replaced by the type universe: `getMethods`, `getDeclaredFields`, `Method.invoke`, `setAccessible` and `newInstance`. A setter's effect on the object's fields is not modelled, so field values come from the `FieldValues` parameter, independent of the call log.
- Failure of a setter invocation or a field read (the wrapped `RuntimeException`) is not modelled: every setter call succeeds. Failed construction in `instantiate` is modelled as `InstantiationFailure`.
- After an exception the model returns only the error, not the partially changed state Java keeps. Examples are earlier mocks in `wireMocks` and earlier types in `wire(Class...)`.
- The `null` configuration branch of the constructor is not modelled: the model always has a configuration. Java's mock objects are instances of the mocked type; the model does not constrain `Config.mock`.
- `getAnnotated` is left out, because it depends on runtime annotation lookup.
- `toString`, `name` and `get(Object, Field)` are left out, because they are debug formatting and reflective reads.
- `instantiate` is a parameter, because object construction lies outside the container.
- Error messages are reduced to the error's kind and the types and field names they carry.
- Iteration order is fixed as described above and is not otherwise modelled.
- Properties.LaterStubWiresBothWays: states that each of the two setters is called at least once with the right counterpart, not that each is called exactly once.

=== FILE: characteristic.dfy ===
/** The characteristic-interface resolver: which directly declared interfaces
    of an implementation type count as roles it is registered under. */
module Characteristic {
  import opened TypeUniverse

  /** The `n`-th type up the superclass chain of `t` (`n == 0` is `t`
      itself), or `None` when the chain ends before that. */
  function Up(u: Universe, t: TypeId, n: nat): (r: Option<TypeId>)
    requires WellFormed(u)
    ensures r.Some? ==> r.value <= t
    ensures r.Some? && n > 0 ==> Known(u, t) && r.value < t
    decreases n
  {
    if n == 0 then Some(t)
    else match Info(u, t).superclass
      case None => None
      case Some(p) => Up(u, p, n - 1)
  }

  /** Some proper ancestor superclass of `t` declares interface `i`. */
  ghost predicate DeclaredByAncestor(u: Universe, t: TypeId, i: TypeId)
    requires WellFormed(u)
  {
    exists n: nat :: 1 <= n && Up(u, t, n).Some? && i in Interfaces(u, Up(u, t, n).value)
  }

  /** The interfaces the walk up the superclass chain removes. */
  function InheritedInterfaces(u: Universe, t: TypeId): set<TypeId>
    requires WellFormed(u)
    decreases t
  {
    match Info(u, t).superclass
    case None => {}
    case Some(p) => (set i | i in Interfaces(u, p)) + InheritedInterfaces(u, p)
  }

  /** The walk removes exactly the interfaces some ancestor declares. */
  lemma {:induction false} InheritedInterfacesSpec(u: Universe, t: TypeId, i: TypeId)
    requires WellFormed(u)
    ensures i in InheritedInterfaces(u, t) <==> DeclaredByAncestor(u, t, i)
    decreases t
  {
    match Info(u, t).superclass
    case None =>
    case Some(p) =>
      InheritedInterfacesSpec(u, p, i);
      if i in InheritedInterfaces(u, t) {
        if i in Interfaces(u, p) {
          assert Up(u, t, 1) == Some(p);
        } else {
          var n: nat :| 1 <= n && Up(u, p, n).Some? && i in Interfaces(u, Up(u, p, n).value);
          assert Up(u, t, n + 1) == Up(u, p, n);
        }
      }
      if DeclaredByAncestor(u, t, i) {
        var n: nat :| 1 <= n && Up(u, t, n).Some? && i in Interfaces(u, Up(u, t, n).value);
        if n > 1 {
          assert Up(u, t, n) == Up(u, p, n - 1);
        }
      }
  }

  /** The characteristic interfaces of `impl`: the directly declared ones,
      less those any ancestor superclass declares, less listener interfaces. */
  function CharacteristicInterfaces(u: Universe, impl: TypeId): (r: set<TypeId>)
    requires WellFormed(u)
    ensures forall i :: i in r ==> i in Interfaces(u, impl) && IsInterface(u, i) && !IsListener(u, i)
  {
    var declared := set i | i in Interfaces(u, impl);
    var ownDeclared := declared - InheritedInterfaces(u, impl);
    set i | i in ownDeclared && !IsListener(u, i)
  }

  /** Exactly the declared interfaces that no ancestor superclass declares
      and that are not listeners are characteristic. */
  lemma CharacteristicInterfacesSpec(u: Universe, impl: TypeId)
    requires WellFormed(u)
    ensures forall i :: i in CharacteristicInterfaces(u, impl) <==>
      i in Interfaces(u, impl) && !DeclaredByAncestor(u, impl, i) && !IsListener(u, i)
  {
    forall i {
      InheritedInterfacesSpec(u, impl, i);
    }
  }

  /** The characteristic interfaces in declaration order: the order in which
      the model lets the wiring engine visit them. */
  function CharacteristicOrder(u: Universe, impl: TypeId): (r: seq<TypeId>)
    requires WellFormed(u)
    ensures forall i :: i in r <==> i in CharacteristicInterfaces(u, impl)
    ensures forall a, b | 0 <= a < b < |r| :: r[a] != r[b]
  {
    var keep := CharacteristicInterfaces(u, impl);
    var decl := Interfaces(u, impl);
    assert forall a, b | 0 <= a < b < |decl| :: decl[a] != decl[b];
    KeepInOrder(decl, keep)
  }

  function KeepInOrder(decl: seq<TypeId>, keep: set<TypeId>): (r: seq<TypeId>)
    requires forall a, b | 0 <= a < b < |decl| :: decl[a] != decl[b]
    ensures forall i :: i in r <==> i in decl && i in keep
    ensures forall a, b | 0 <= a < b < |r| :: r[a] != r[b]
  {
    if decl == [] then []
    else
      var rest := KeepInOrder(decl[1..], keep);
      assert decl[0] !in decl[1..];
      if decl[0] in keep then [decl[0]] + rest else rest
  }
}

=== FILE: lifecycle.dfy ===
/** The container's life: construction with the configuration's init
    phase, then any sequence of public calls. */
module Lifecycle {
  import opened TypeUniverse
  import opened Registry
  import opened Wiring
  import opened Verification

  /** A public call a test makes on the container. */
  datatype Op =
    | StubOp(bean: Bean)
    | MockOp(mocked: TypeId)
    | MocksOp(mockedAll: seq<TypeId>)
    | WireOp(impl: TypeId)
    | WireAllOp(impls: seq<TypeId>)
    | GetOp(role: TypeId)

  /** What Java's typing guarantees of a call's arguments: they are loaded
      types, and an object handed to `wireStub` is not of an interface type. */
  predicate Admissible(u: Universe, op: Op) {
    match op
    case StubOp(Instance(obj)) => Known(u, obj.cls) && !IsInterface(u, obj.cls)
    case StubOp(ClassLiteral(t)) => Known(u, t)
    case MockOp(t) => Known(u, t)
    case MocksOp(ts) => forall t | t in ts :: Known(u, t)
    case WireOp(t) => Known(u, t)
    case WireAllOp(ts) => forall t | t in ts :: Known(u, t)
    case GetOp(_) => true
  }

  /** `s'` is a later state of `s`: no stored instance was replaced or
      removed, no injected role forgotten, no logged call undone. */
  predicate Extends(s: Container, s': Container) {
    && (forall k | k in s.instances :: k in s'.instances && s'.instances[k] == s.instances[k])
    && s.injected <= s'.injected
    && s.log <= s'.log
  }

  /** One public call; a thrown exception ends the run as an `Err`. */
  function Step(u: Universe, cfg: Config, instantiate: TypeId -> Option<nat>, s: Container, op: Op)
    : (r: Result<Container>)
    requires WellFormed(u) && Valid(u, s) && Admissible(u, op)
    ensures r.Ok? ==> Valid(u, r.value) && Extends(s, r.value)
    ensures op.GetOp? ==> (r.Err? <==> ImplementationFor(s, op.role).None?)
    ensures op.GetOp? && r.Ok? ==> r.value == s
  {
    match op
    case StubOp(bean) =>
      var (s1, _) :- WireStubBean(u, cfg, instantiate, s, bean);
      Ok(s1)
    case MockOp(t) =>
      var (s1, _) :- WireMock(u, cfg, s, t);
      Ok(s1)
    case MocksOp(ts) => WireMocks(u, cfg, s, ts)
    case WireOp(t) =>
      var (s1, _) :- Wire(u, cfg, instantiate, s, t);
      Ok(s1)
    case WireAllOp(ts) => WireAll(u, cfg, instantiate, s, ts)
    case GetOp(role) =>
      var _ :- Get(s, role);
      Ok(s)
  }

  /** A sequence of calls, stopping at the first that throws. */
  function Run(u: Universe, cfg: Config, instantiate: TypeId -> Option<nat>, s: Container, ops: seq<Op>)
    : (r: Result<Container>)
    requires WellFormed(u) && Valid(u, s) && forall op | op in ops :: Admissible(u, op)
    ensures r.Ok? ==> Valid(u, r.value) && Extends(s, r.value)
    decreases |ops|
  {
    if ops == [] then Ok(s)
    else
      var s1 :- Step(u, cfg, instantiate, s, ops[0]);
      Run(u, cfg, instantiate, s1, ops[1..])
  }

  /** The constructor: run the configuration's `init` calls on an empty
      container, then pretend every role bound so far was injected, so that
      nothing set up during init is ever reported as an unused mock. */
  function Construct(u: Universe, cfg: Config, instantiate: TypeId -> Option<nat>, init: seq<Op>)
    : (r: Result<Container>)
    requires WellFormed(u) && forall op | op in init :: Admissible(u, op)
    ensures r.Ok? ==> Valid(u, r.value)
    ensures r.Ok? ==> r.value.implementations.Keys == r.value.injected
    ensures r.Ok? ==> forall k :: k in r.value.instances ==> k in r.value.injected
  {
    var s :- Run(u, cfg, instantiate, Empty, init);
    Ok(s.(injected := s.injected + s.implementations.Keys))
  }

  /** The init exemption: a type bound during init, mock or not, is never
      reported by the necessity pass, whatever the test does afterwards. */
  lemma InitRolesExempt(u: Universe, cfg: Config, instantiate: TypeId -> Option<nat>,
                        init: seq<Op>, ops: seq<Op>, k: TypeId)
    requires WellFormed(u)
    requires forall op | op in init :: Admissible(u, op)
    requires forall op | op in ops :: Admissible(u, op)
    requires Construct(u, cfg, instantiate, init).Ok?
    requires Run(u, cfg, instantiate, Construct(u, cfg, instantiate, init).value, ops).Ok?
    requires k in Construct(u, cfg, instantiate, init).value.implementations
    ensures var s := Run(u, cfg, instantiate, Construct(u, cfg, instantiate, init).value, ops).value;
      !UnusedMockAt(cfg, s, k)
      && (VerifyMocksAreRequired(u, cfg, s).Fail? ==> VerifyMocksAreRequired(u, cfg, s).error.role != k)
  {
  }
}

=== FILE: properties.dfy ===
/** Properties that relate several calls: behaviour of the registry that
    follows from its code (rebinding, orphaned mocks, mocks as leaves), and
    how stubs and mocks meet. */
module Properties {
  import opened TypeUniverse
  import opened Characteristic
  import opened Registry
  import opened Wiring
  import opened Verification

  /** `wireMock` twice yields the same object and leaves the maps as the
      first call left them. */
  lemma WireMockTwice(u: Universe, cfg: Config, cfg': Config, s: Container, t: TypeId)
    requires Valid(u, s) && Known(u, t)
    requires t in s.instances || t !in s.implementations
    ensures var (s1, o) := WireMock(u, cfg, s, t).value;
      && WireMock(u, cfg', s1, t).Ok?
      && WireMock(u, cfg', s1, t).value.1 == o
      && WireMock(u, cfg', s1, t).value.0.instances == s1.instances
      && WireMock(u, cfg', s1, t).value.0.implementations == s1.implementations
  {
  }

  /** Mocking a concrete class that already has a stub hands back the stub
      and creates no mock. */
  lemma MockOfStubbedClassIsStub(u: Universe, cfg: Config, s: Container, obj: Obj)
    requires WellFormed(u) && Valid(u, s)
    requires Known(u, obj.cls) && !IsInterface(u, obj.cls)
    requires obj.cls !in s.implementations
    ensures var s1 := WireStub(u, s, obj).value;
      && WireMock(u, cfg, s1, obj.cls).Ok?
      && WireMock(u, cfg, s1, obj.cls).value.1 == obj
      && WireMock(u, cfg, s1, obj.cls).value.0.instances == s1.instances
  {
  }

  /** A second stub sharing a characteristic interface takes that role over
      silently; the first stub stays registered under its own class. */
  lemma SharedInterfaceRebound(u: Universe, s: Container, a: Obj, b: Obj, i: TypeId)
    requires WellFormed(u) && Valid(u, s)
    requires Known(u, a.cls) && !IsInterface(u, a.cls)
    requires Known(u, b.cls) && !IsInterface(u, b.cls)
    requires a.cls !in s.implementations && b.cls !in s.implementations && a.cls != b.cls
    requires i in CharacteristicInterfaces(u, a.cls) && i in CharacteristicInterfaces(u, b.cls)
    ensures WireStub(u, s, a).Ok?
    ensures var s1 := WireStub(u, s, a).value;
      && WireStub(u, s1, b).Ok?
      && Get(WireStub(u, s1, b).value, i) == Ok(b)
      && Get(WireStub(u, s1, b).value, a.cls) == Ok(a)
  {
    var s1 := WireStub(u, s, a).value;
    assert s1.implementations[a.cls] == a.cls && s1.instances[a.cls] == a by {
      assert a.cls in StubRoles(u, a.cls);
    }
    assert b.cls !in s1.implementations by {
      assert b.cls !in StubRoles(u, a.cls);
    }
    var s2 := WireStub(u, s1, b).value;
    assert i in StubRoles(u, b.cls);
    assert a.cls !in StubRoles(u, b.cls);
    assert s2.implementations[a.cls] == a.cls;
    assert s2.instances[a.cls] == a;
  }

  /** A mock stored under interface `i` is orphaned once a stub claims `i`
      as a characteristic interface: it stays stored, but no role resolves
      to it any more. */
  lemma MockOrphanedByStub(u: Universe, cfg: Config, s: Container, b: Obj, i: TypeId)
    requires WellFormed(u) && Valid(u, s)
    requires Known(u, b.cls) && !IsInterface(u, b.cls)
    requires i in CharacteristicInterfaces(u, b.cls) && i in s.instances
    requires b.cls !in s.implementations
    ensures var s1 := WireStub(u, s, b).value;
      && i in s1.instances && s1.instances[i] == s.instances[i]
      && forall r | r in s1.implementations :: s1.implementations[r] != i
  {
    var s1 := WireStub(u, s, b).value;
    var roles := StubRoles(u, b.cls);
    forall r | r in s1.implementations
      ensures s1.implementations[r] != i
    {
      if r !in roles {
        assert s1.implementations[r] == s.implementations[r];
        assert IsInterface(u, i);
      }
    }
  }

  /** Mocks are leaves: an object stored only under interface keys never
      receives a pull-phase setter call. */
  lemma MocksAreLeaves(u: Universe, instances: map<TypeId, Obj>, role: TypeId, arg: Obj, o: Obj)
    requires forall k | k in instances && instances[k] == o :: IsInterface(u, k)
    ensures forall c | c in PullCalls(u, instances, role, arg, 0) :: c.target != o
  {
    PullCallsSpec(u, instances, role, arg, 0);
  }

  /** Whichever of two stubs comes second, both directions are wired: the
      earlier stub is offered the later one in the pull phase, and the later
      one is given the earlier one in its push phase. */
  lemma LaterStubWiresBothWays(u: Universe, s: Container, a: Obj, b: Obj, ma: Method, mb: Method)
    requires WellFormed(u) && Valid(u, s)
    requires a.cls in s.instances && s.instances[a.cls] == a && !IsInterface(u, a.cls)
    requires s.implementations[a.cls] == a.cls
    requires Known(u, b.cls) && !IsInterface(u, b.cls)
    requires b.cls !in s.implementations
    requires ma in Methods(u, a.cls) && IsSetterForType(ma, b.cls)
    requires mb in Methods(u, b.cls) && IsSetterForType(mb, a.cls)
    ensures var s1 := WireStub(u, s, b).value;
      Call(a, ma, b) in s1.log[|s.log|..] && Call(b, mb, a) in s1.log[|s.log|..]
  {
    var s1 := WireStub(u, s, b).value;
    assert s1.log[|s.log|..] == StubWiringLog(u, s1, b);
    assert a.cls != b.cls;
    assert a.cls !in StubRoles(u, b.cls);
    assert Resolve(s1.instances, s1.implementations, a.cls) == Some(a);
    assert Call(b, mb, a) in PushCalls(s1.instances, s1.implementations, b, Methods(u, b.cls));
    assert Known(u, a.cls);
    assert s1.instances[a.cls] == a by {
      var reg := RegisterImplementation(u, s, b).value;
      assert s1.instances == reg.instances;
    }
    assert forall i | i in StubRoles(u, b.cls) :: ImplementationFor(s1, i) == Some(b);
    PulledIntoEarlierStub(u, s1, a, b, ma);
  }

  /** The pull phase for the later stub's class reaches the earlier stub. */
  lemma PulledIntoEarlierStub(u: Universe, s1: Container, a: Obj, b: Obj, ma: Method)
    requires WellFormed(u)
    requires forall i | i in StubRoles(u, b.cls) :: ImplementationFor(s1, i) == Some(b)
    requires a.cls in s1.instances && s1.instances[a.cls] == a && Known(u, a.cls) && !IsInterface(u, a.cls)
    requires ma in Methods(u, a.cls) && IsSetterForType(ma, b.cls)
    ensures Call(a, ma, b) in PullLog(u, s1.instances, s1.implementations, PullOrder(u, b.cls))
  {
    var roles := PullOrder(u, b.cls);
    PullCallsSpec(u, s1.instances, b.cls, b, 0);
    assert IsPullCallFrom(u, s1.instances, b.cls, b, Call(a, ma, b), 0);
    PullLogSpec(u, s1.instances, s1.implementations, roles);
    assert b.cls in roles && Resolve(s1.instances, s1.implementations, b.cls).value == b;
  }

  /** When some stored implementation has a setter for `t`, `wireMock(t)`
      sets whatever `t` resolves to into it, so `t` counts as injected and
      the necessity pass never names it. That is the fresh mock when `t` was
      unbound, and an earlier stub when a stub has claimed `t`. */
  lemma ConsumedMockNotReported(u: Universe, cfg: Config, s: Container, t: TypeId, k: TypeId, m: Method)
    requires Valid(u, s) && Known(u, t)
    requires k in s.instances && !IsInterface(u, k)
    requires m in Methods(u, s.instances[k].cls) && IsSetterForType(m, t)
    requires t in s.instances || t !in s.implementations
    ensures var s' := WireMock(u, cfg, s, t).value.0;
      && Call(s.instances[k], m, ImplementationFor(s', t).value) in s'.log
      && t in s'.injected
      && !UnusedMockAt(cfg, s', t)
      && (t !in s.implementations ==> ImplementationFor(s', t).value == WireMock(u, cfg, s, t).value.1)
  {
    var s' := WireMock(u, cfg, s, t).value.0;
    var c := Call(s.instances[k], m, ImplementationFor(s', t).value);
    WireMockCalls(u, cfg, s, t);
    assert k in s'.instances && s'.instances[k] == s.instances[k];
    assert IsPullCall(u, s'.instances, t, ImplementationFor(s', t).value, c);
    assert c in s'.log[|s.log|..];
  }

  /** The other order: when `t` is already bound (a mock stored earlier,
      say) and a new stub has a setter for `t`, the stub's push phase sets
      what `t` resolves to into it, so `t` counts as injected and the
      necessity pass never names it. */
  lemma PushedMockNotReported(u: Universe, cfg: Config, s: Container, obj: Obj, t: TypeId, m: Method)
    requires WellFormed(u) && Valid(u, s)
    requires Known(u, obj.cls) && !IsInterface(u, obj.cls) && obj.cls !in s.implementations
    requires t in s.implementations
    requires m in Methods(u, obj.cls) && IsSetterForType(m, t)
    ensures WireStub(u, s, obj).Ok?
    ensures var s' := WireStub(u, s, obj).value;
      && ImplementationFor(s', t).Some?
      && Call(obj, m, ImplementationFor(s', t).value) in s'.log
      && t in s'.injected
      && !UnusedMockAt(cfg, s', t)
  {
    var s' := WireStub(u, s, obj).value;
    assert t in s'.implementations;
    ResolvesIffBound(u, s', t);
    PushCallLogged(u, s'.log[|s.log|..], s', obj, m, t);
    assert t in InjectedBy(s'.log[|s.log|..]);
  }

  /** A stub's wiring calls include its setter for `t`, given what `t`
      resolves to. */
  lemma PushCallLogged(u: Universe, calls: seq<Call>, s: Container, obj: Obj, m: Method, t: TypeId)
    requires WellFormed(u) && calls == StubWiringLog(u, s, obj)
    requires m in Methods(u, obj.cls) && IsSetterForType(m, t) && ImplementationFor(s, t).Some?
    ensures Call(obj, m, ImplementationFor(s, t).value) in calls
  {
    var pushed := PushCalls(s.instances, s.implementations, obj, Methods(u, obj.cls));
    assert Call(obj, m, ImplementationFor(s, t).value) in pushed;
  }

  /** `wire(Class...)` depends on the order of its arguments. Wiring a class
      first makes it claim its characteristic interface `i`, so mocking `i`
      afterwards is a role conflict. */
  lemma ClassThenInterfaceConflicts(u: Universe, cfg: Config, instantiate: TypeId -> Option<nat>, s: Container,
                                    impl: TypeId, i: TypeId)
    requires WellFormed(u) && Valid(u, s) && Known(u, impl) && Known(u, i)
    requires !IsInterface(u, impl) && i in CharacteristicInterfaces(u, impl)
    requires impl !in s.implementations && i !in s.implementations && instantiate(impl).Some?
    ensures WireAll(u, cfg, instantiate, s, [impl, i]) == Err(RoleConflict(i, impl))
  {
    var obj := Obj(instantiate(impl).value, impl);
    var s1 := WireStub(u, s, obj).value;
    assert Wire(u, cfg, instantiate, s, impl) == Ok((s1, obj));
    assert i in StubRoles(u, impl);
    assert s1.implementations[i] == impl && i !in s1.instances;
    assert Wire(u, cfg, instantiate, s1, i) == Err(RoleConflict(i, impl));
    assert [impl, i][1..] == [i];
  }

  /** The other order succeeds: mocking `i` first and then wiring the class
      lets the class take `i` over. */
  lemma InterfaceThenClassWires(u: Universe, cfg: Config, instantiate: TypeId -> Option<nat>, s: Container,
                                impl: TypeId, i: TypeId)
    requires WellFormed(u) && Valid(u, s) && Known(u, impl) && Known(u, i)
    requires !IsInterface(u, impl) && i in CharacteristicInterfaces(u, impl)
    requires impl !in s.implementations && i !in s.implementations && instantiate(impl).Some?
    ensures WireAll(u, cfg, instantiate, s, [i, impl]).Ok?
  {
    MockUnboundInterface(u, cfg, instantiate, s, i);
    var s2 := Wire(u, cfg, instantiate, s, i).value.0;
    WireSingle(u, cfg, instantiate, s2, impl);
    assert [i, impl][1..] == [impl];
  }

  /** Wiring an unbound interface mocks it and binds it to itself only. */
  lemma MockUnboundInterface(u: Universe, cfg: Config, instantiate: TypeId -> Option<nat>, s: Container, i: TypeId)
    requires WellFormed(u) && Valid(u, s) && Known(u, i) && IsInterface(u, i) && i !in s.implementations
    ensures Wire(u, cfg, instantiate, s, i).Ok?
    ensures var s' := Wire(u, cfg, instantiate, s, i).value.0;
      Valid(u, s') && s'.implementations == s.implementations[i := i]
  {
    assert i !in s.instances;
    assert Wire(u, cfg, instantiate, s, i) == WireMock(u, cfg, s, i);
  }

  /** `wire(Class...)` of one type succeeds when that `wire` does. */
  lemma WireSingle(u: Universe, cfg: Config, instantiate: TypeId -> Option<nat>, s: Container, t: TypeId)
    requires WellFormed(u) && Valid(u, s) && Known(u, t)
    requires !IsInterface(u, t) && instantiate(t).Some? && t !in s.implementations
    ensures WireAll(u, cfg, instantiate, s, [t]).Ok?
  {
    var w := Wire(u, cfg, instantiate, s, t);
    assert WireAll(u, cfg, instantiate, w.value.0, []) == Ok(w.value.0);
    assert [t][1..] == [];
  }

  /** A mock of an interface no stored implementation has a setter for
      stays unconsumed, and the necessity pass fails. */
  lemma UnconsumedMockReported(u: Universe, cfg: Config, s: Container, t: TypeId)
    requires Valid(u, s) && Known(u, t) && IsInterface(u, t)
    requires t !in s.implementations && cfg.isMock(cfg.mock(t))
    requires forall k, m | k in s.instances && !IsInterface(u, k) && m in Methods(u, s.instances[k].cls) ::
      !IsSetterForType(m, t)
    ensures WireMock(u, cfg, s, t).Ok?
    ensures var s' := WireMock(u, cfg, s, t).value.0;
      UnusedMockAt(cfg, s', t) && VerifyMocksAreRequired(u, cfg, s').Fail?
  {
    var s' := WireMock(u, cfg, s, t).value.0;
    assert s'.instances == s.instances[t := cfg.mock(t)];
    NoPullCalls(u, s'.instances, t, ImplementationFor(s', t).value, 0);
    assert s'.injected == s.injected;
    assert s'.instances[t] == cfg.mock(t);
    assert UnusedMockAt(cfg, s', t);
  }
}

=== FILE: registry.dfy ===
/** The instance registry: `instances` (implementation type to object),
    `implementations` (role to implementation type) and `injected` (roles
    that some setter has consumed), plus the log of setter invocations. */
module Registry {
  import opened TypeUniverse
  import opened Characteristic

  /** One invocation of `setter` on `target` with `argument`. */
  datatype Call = Call(target: Obj, setter: Method, argument: Obj)

  datatype Container = Container(
    instances: map<TypeId, Obj>,
    implementations: map<TypeId, TypeId>,
    injected: set<TypeId>,
    log: seq<Call>)

  datatype Error =
    | DuplicateRegistration(impl: TypeId)
    | RoleConflict(mocked: TypeId, bound: TypeId)
    | MissingWiring(role: TypeId)
    | InstantiationFailure(impl: TypeId)
    | MissingDependency(owner: TypeId, field: string, fieldType: TypeId)
    | UnusedMock(role: TypeId)

  datatype Result<+T> = Ok(value: T) | Err(error: Error) {
    predicate IsFailure() { Err? }
    function PropagateFailure<U>(): Result<U>
      requires Err?
    {
      Err(error)
    }
    function Extract(): T
      requires Ok?
    {
      value
    }
  }

  /** The verdict of a check that returns nothing when it passes. */
  datatype Outcome = Pass | Fail(error: Error)

  /** The caller's mocking policy: `mock` makes a test double of a type,
      `isMock` recognises one. */
  datatype Config = Config(mock: TypeId -> Obj, isMock: Obj -> bool)

  const Empty: Container := Container(map[], map[], {}, [])

  /** The registry invariant every public operation keeps. */
  predicate Valid(u: Universe, s: Container) {
    // every stored instance is keyed by a type of the universe and is bound as a role
    && (forall k :: k in s.instances ==> Known(u, k) && k in s.implementations)
    // every binding resolves to a stored instance
    && (forall r :: r in s.implementations ==> s.implementations[r] in s.instances)
    // an interface is bound to no role but itself (only a mock is keyed by one)
    && (forall r :: r in s.implementations ==>
          s.implementations[r] == r || !IsInterface(u, s.implementations[r]))
    // an implementation type is bound to itself before it fills another role
    && (forall r :: r in s.implementations ==>
          s.implementations[r] in s.implementations
          && s.implementations[s.implementations[r]] == s.implementations[r])
    // only roles that were bound have been injected
    && s.injected <= s.implementations.Keys
  }

  function InstanceFor(s: Container, t: TypeId): Option<Obj> {
    if t in s.instances then Some(s.instances[t]) else None
  }

  /** Resolves a role to the instance of the implementation type bound to it. */
  function Resolve(instances: map<TypeId, Obj>, implementations: map<TypeId, TypeId>, role: TypeId): Option<Obj> {
    if role in implementations && implementations[role] in instances then
      Some(instances[implementations[role]])
    else None
  }

  /** `getImplementationFor`: a role's instance, looked up in two steps. */
  function ImplementationFor(s: Container, role: TypeId): (r: Option<Obj>)
    ensures r.Some? <==> role in s.implementations && s.implementations[role] in s.instances
    ensures r.Some? ==> r.value == s.instances[s.implementations[role]]
  {
    if role in s.implementations then InstanceFor(s, s.implementations[role]) else None
  }

  /** Under the invariant a role resolves exactly when it is bound. */
  lemma ResolvesIffBound(u: Universe, s: Container, role: TypeId)
    requires Valid(u, s)
    ensures ImplementationFor(s, role).Some? <==> role in s.implementations
    ensures role in s.implementations ==>
      ImplementationFor(s, role) == Some(s.instances[s.implementations[role]])
  {
  }

  /** Public retrieval: the resolved instance, or a fatal MissingWiring. */
  function Get(s: Container, role: TypeId): (r: Result<Obj>)
    ensures r.Err? <==> role !in s.implementations || s.implementations[role] !in s.instances
    ensures r.Err? ==> r.error == MissingWiring(role)
    ensures r.Ok? ==> r.value == s.instances[s.implementations[role]]
  {
    match ImplementationFor(s, role)
    case None => Err(MissingWiring(role))
    case Some(o) => Ok(o)
  }

  function Register(s: Container, obj: Obj, role: TypeId, impl: TypeId): Container {
    s.(instances := s.instances[impl := obj], implementations := s.implementations[role := impl])
  }

  /** Records a mock under the mocked type, unless that role is already
      bound to a different implementation type. */
  function RegisterMock(s: Container, obj: Obj, mocked: TypeId): (r: Result<Container>)
    ensures r.Err? <==> mocked in s.implementations && s.implementations[mocked] != mocked
    ensures r.Err? ==> r.error == RoleConflict(mocked, s.implementations[mocked])
    ensures r.Ok? ==> r.value.instances.Keys == s.instances.Keys + {mocked}
    ensures r.Ok? ==> r.value.implementations.Keys == s.implementations.Keys + {mocked}
    ensures r.Ok? ==> r.value.instances[mocked] == obj && r.value.implementations[mocked] == mocked
    ensures r.Ok? ==> forall k :: k in s.instances && k != mocked ==> r.value.instances[k] == s.instances[k]
    ensures r.Ok? ==> forall k :: k in s.implementations && k != mocked ==>
      r.value.implementations[k] == s.implementations[k]
    ensures r.Ok? ==> r.value.injected == s.injected && r.value.log == s.log
  {
    if mocked in s.implementations && s.implementations[mocked] != mocked then
      Err(RoleConflict(mocked, s.implementations[mocked]))
    else
      Ok(Register(s, obj, mocked, mocked))
  }

  /** The roles a stub of class `impl` is bound under. */
  function StubRoles(u: Universe, impl: TypeId): set<TypeId>
    requires WellFormed(u)
  {
    {impl} + CharacteristicInterfaces(u, impl)
  }

  /** Records a stub under its own class and under each of its characteristic
      interfaces; fails when the class is already bound. A characteristic
      interface already bound elsewhere is silently rebound to this class. */
  function RegisterImplementation(u: Universe, s: Container, obj: Obj): (r: Result<Container>)
    requires WellFormed(u)
    ensures r.Err? <==> obj.cls in s.implementations
    ensures r.Err? ==> r.error == DuplicateRegistration(obj.cls)
    ensures r.Ok? ==> r.value.instances.Keys == s.instances.Keys + {obj.cls}
    ensures r.Ok? ==> r.value.instances[obj.cls] == obj
    ensures r.Ok? ==> forall k :: k in s.instances && k != obj.cls ==> r.value.instances[k] == s.instances[k]
    ensures r.Ok? ==> r.value.implementations.Keys == s.implementations.Keys + StubRoles(u, obj.cls)
    ensures r.Ok? ==> forall k :: k in StubRoles(u, obj.cls) ==> r.value.implementations[k] == obj.cls
    ensures r.Ok? ==> forall k :: k in s.implementations && k !in StubRoles(u, obj.cls) ==>
      r.value.implementations[k] == s.implementations[k]
    ensures r.Ok? ==> r.value.injected == s.injected && r.value.log == s.log
  {
    var impl := obj.cls;
    if impl in s.implementations then
      Err(DuplicateRegistration(impl))
    else
      var selfBound := s.(instances := s.instances[impl := obj],
                          implementations := s.implementations[impl := impl]);
      var roles := CharacteristicInterfaces(u, impl);
      Ok(selfBound.(implementations := selfBound.implementations + map i | i in roles :: impl))
  }

  /** Registering a stub whose class is not an interface keeps the invariant. */
  lemma RegisterImplementationValid(u: Universe, s: Container, obj: Obj)
    requires WellFormed(u) && Valid(u, s)
    requires Known(u, obj.cls) && !IsInterface(u, obj.cls)
    requires obj.cls !in s.implementations
    ensures Valid(u, RegisterImplementation(u, s, obj).value)
  {
    var s' := RegisterImplementation(u, s, obj).value;
    var roles := StubRoles(u, obj.cls);
    forall r | r in s'.implementations
      ensures s'.implementations[r] in s'.implementations
      ensures s'.implementations[s'.implementations[r]] == s'.implementations[r]
    {
    }
  }

  /** Registering a mock keyed by a known type keeps the invariant. */
  lemma RegisterMockValid(u: Universe, s: Container, obj: Obj, mocked: TypeId)
    requires Valid(u, s) && Known(u, mocked)
    requires mocked !in s.implementations || s.implementations[mocked] == mocked
    ensures Valid(u, RegisterMock(s, obj, mocked).value)
  {
    var s' := RegisterMock(s, obj, mocked).value;
    assert s'.instances == s.instances[mocked := obj];
    assert s'.implementations == s.implementations[mocked := mocked];
    forall r | r in s'.implementations
      ensures s'.implementations[r] in s'.instances
      ensures s'.implementations[r] == r || !IsInterface(u, s'.implementations[r])
      ensures s'.implementations[s'.implementations[r]] == s'.implementations[r]
    {
      if r != mocked {
        assert s'.implementations[r] == s.implementations[r];
      }
    }
  }

  /** `ensureMockExisits`: the instance already stored under `mocked` (a
      mock, or a stub when `mocked` is a concrete class that has one), else a
      freshly made mock registered under `mocked`. */
  function EnsureMock(cfg: Config, s: Container, mocked: TypeId): (r: Result<(Container, Obj)>)
    ensures mocked in s.instances ==> r == Ok((s, s.instances[mocked]))
    ensures mocked !in s.instances ==>
      (r.Err? <==> mocked in s.implementations && s.implementations[mocked] != mocked)
    ensures mocked !in s.instances && r.Ok? ==>
      r.value.1 == cfg.mock(mocked) && r.value.0 == RegisterMock(s, cfg.mock(mocked), mocked).value
    ensures r.Ok? ==> mocked in r.value.0.instances && r.value.0.instances[mocked] == r.value.1
  {
    match InstanceFor(s, mocked)
    case Some(o) => Ok((s, o))
    case None =>
      var obj := cfg.mock(mocked);
      var s' :- RegisterMock(s, obj, mocked);
      Ok((s', obj))
  }

  /** A second call finds what the first stored: same state, same object,
      and the mocking policy is not consulted again. */
  lemma EnsureMockIdempotent(cfg: Config, cfg': Config, s: Container, mocked: TypeId)
    requires EnsureMock(cfg, s, mocked).Ok?
    ensures var (s1, o) := EnsureMock(cfg, s, mocked).value;
      EnsureMock(cfg', s1, mocked) == Ok((s1, o))
  {
  }
}

=== FILE: universe.dfy ===
/** The reflective view of a Java class hierarchy that the container consumes.

    Reflection is replaced by a finite universe of type descriptors indexed by
    `TypeId`. Types are compared by identity, which here is equality of ids.
    An id outside the universe reads as a type without any metadata (no
    superclass, interfaces, methods or fields).
 */
module TypeUniverse {

  type TypeId = nat

  datatype Option<+T> = None | Some(value: T)

  /** A public method as `Class.getMethods` reports it. */
  datatype Method = Method(name: string, params: seq<TypeId>, returnsVoid: bool)

  /** A declared field as `Class.getDeclaredFields` reports it; `isCollection`
      says whether `Collection` is assignable from the field's type. */
  datatype Field = Field(name: string, fieldType: TypeId, isStatic: bool, isCollection: bool)

  datatype TypeInfo = TypeInfo(
    isInterface: bool,
    simpleName: string,
    superclass: Option<TypeId>,
    interfaces: seq<TypeId>,
    methods: seq<Method>,
    fields: seq<Field>)

  datatype Universe = Universe(types: seq<TypeInfo>)

  /** An opaque object: its identity and its runtime class. */
  datatype Obj = Obj(id: nat, cls: TypeId)

  const NoInfo: TypeInfo := TypeInfo(false, "", None, [], [], [])

  predicate Known(u: Universe, t: TypeId) {
    t < |u.types|
  }

  function Info(u: Universe, t: TypeId): TypeInfo {
    if Known(u, t) then u.types[t] else NoInfo
  }

  predicate IsInterface(u: Universe, t: TypeId) {
    Info(u, t).isInterface
  }

  function Interfaces(u: Universe, t: TypeId): seq<TypeId> {
    Info(u, t).interfaces
  }

  function Methods(u: Universe, t: TypeId): seq<Method> {
    Info(u, t).methods
  }

  function Fields(u: Universe, t: TypeId): seq<Field> {
    Info(u, t).fields
  }

  /** What Java guarantees of every loaded class: the superclass chain is
      finite and acyclic (a superclass precedes its subclasses), and a class
      declares distinct interface types. */
  predicate WellFormed(u: Universe) {
    && (forall t | 0 <= t < |u.types| ::
          u.types[t].superclass.Some? ==> u.types[t].superclass.value < t)
    && (forall t, j | 0 <= t < |u.types| && 0 <= j < |u.types[t].interfaces| ::
          IsInterface(u, u.types[t].interfaces[j]))
    && (forall t, i, j | 0 <= t < |u.types| && 0 <= i < j < |u.types[t].interfaces| ::
          u.types[t].interfaces[i] != u.types[t].interfaces[j])
  }

  predicate StartsWith(s: string, prefix: string) {
    |prefix| <= |s| && s[..|prefix|] == prefix
  }

  predicate EndsWith(s: string, suffix: string) {
    |suffix| <= |s| && s[|s| - |suffix|..] == suffix
  }

  /** Setter-shaped: named `set…`, exactly one parameter, returns void. */
  predicate IsSetter(m: Method) {
    StartsWith(m.name, "set") && |m.params| == 1 && m.returnsVoid
  }

  /** A setter whose single parameter type is identical to `t`. */
  predicate IsSetterForType(m: Method, t: TypeId) {
    IsSetter(m) && m.params[0] == t
  }

  /** The naming convention that marks event-listener plumbing interfaces. */
  predicate IsListener(u: Universe, i: TypeId) {
    EndsWith(Info(u, i).simpleName, "Listener")
  }
}

=== FILE: verification.dfy ===
/** The verification engine: the completeness pass (every real
    implementation has its dependencies) and the necessity pass (every mock
    was consumed). Field values are read through an oracle, since what a
    setter stores is not visible to the container. */
module Verification {
  import opened TypeUniverse
  import opened Registry

  /** Reads the current value of a field of an object; `None` is `null`. */
  type FieldValues = (Obj, Field) -> Option<Obj>

  /** A field the completeness pass inspects: neither static nor a collection. */
  predicate IsDependencyField(f: Field) {
    !f.isStatic && !f.isCollection
  }

  /** Entry `k` is stored under a non-interface key, holds no mock, and its
      object's class declares the dependency field `f`, which is null. */
  predicate MissesDependency(u: Universe, cfg: Config, s: Container, value: FieldValues, k: TypeId, f: Field) {
    && k in s.instances
    && !IsInterface(u, k)
    && !cfg.isMock(s.instances[k])
    && f in Fields(u, s.instances[k].cls)
    && IsDependencyField(f)
    && value(s.instances[k], f).None?
  }

  /** Entry `k` holds a mock whose role was never injected. */
  predicate UnusedMockAt(cfg: Config, s: Container, k: TypeId) {
    k in s.instances && cfg.isMock(s.instances[k]) && k !in s.injected
  }

  ghost predicate AllSupplied(u: Universe, cfg: Config, s: Container, value: FieldValues) {
    forall k, f :: !MissesDependency(u, cfg, s, value, k, f)
  }

  ghost predicate AllMocksRequired(cfg: Config, s: Container) {
    forall k :: !UnusedMockAt(cfg, s, k)
  }

  /** The first null dependency field of `obj` among `fs`. */
  function NullDependency(obj: Obj, fs: seq<Field>, value: FieldValues): (r: Option<Field>)
    ensures r.None? <==> forall f | f in fs :: !(IsDependencyField(f) && value(obj, f).None?)
    ensures r.Some? ==> r.value in fs && IsDependencyField(r.value) && value(obj, r.value).None?
  {
    if fs == [] then None
    else if IsDependencyField(fs[0]) && value(obj, fs[0]).None? then Some(fs[0])
    else NullDependency(obj, fs[1..], value)
  }

  /** The completeness pass over the entries keyed `from` upwards. */
  function CheckSupplied(u: Universe, cfg: Config, s: Container, value: FieldValues, from: nat): (r: Outcome)
    ensures r.Pass? <==> forall k, f | from <= k < |u.types| :: !MissesDependency(u, cfg, s, value, k, f)
    ensures r.Fail? ==> exists k, f :: (from <= k < |u.types| && MissesDependency(u, cfg, s, value, k, f)
      && r.error == MissingDependency(s.instances[k].cls, f.name, f.fieldType))
    decreases |u.types| - from
  {
    if from >= |u.types| then Pass
    else if from in s.instances && !IsInterface(u, from) && !cfg.isMock(s.instances[from]) then
      var obj := s.instances[from];
      match NullDependency(obj, Fields(u, obj.cls), value)
      case Some(f) =>
        assert MissesDependency(u, cfg, s, value, from, f);
        Fail(MissingDependency(obj.cls, f.name, f.fieldType))
      case None => CheckSupplied(u, cfg, s, value, from + 1)
    else
      CheckSupplied(u, cfg, s, value, from + 1)
  }

  /** `verifyImplementationsSuppliedWithDependencies`: fails exactly when
      some real implementation has a null dependency field, naming the
      owning class, the field and its type. */
  function VerifySupplied(u: Universe, cfg: Config, s: Container, value: FieldValues): (r: Outcome)
    requires Valid(u, s)
    ensures r.Pass? <==> AllSupplied(u, cfg, s, value)
    ensures r.Fail? ==> exists k, f :: (MissesDependency(u, cfg, s, value, k, f)
      && r.error == MissingDependency(s.instances[k].cls, f.name, f.fieldType))
  {
    CheckSupplied(u, cfg, s, value, 0)
  }

  /** The necessity pass over the entries keyed `from` upwards. */
  function CheckMocks(u: Universe, cfg: Config, s: Container, from: nat): (r: Outcome)
    ensures r.Pass? <==> forall k | from <= k < |u.types| :: !UnusedMockAt(cfg, s, k)
    ensures r.Fail? ==> (r.error.UnusedMock? && from <= r.error.role < |u.types|
      && UnusedMockAt(cfg, s, r.error.role))
    decreases |u.types| - from
  {
    if from >= |u.types| then Pass
    else if UnusedMockAt(cfg, s, from) then Fail(UnusedMock(from))
    else CheckMocks(u, cfg, s, from + 1)
  }

  /** `verifyMocksAreRequired`: fails exactly when some mock's role was
      never injected, naming that role. */
  function VerifyMocksAreRequired(u: Universe, cfg: Config, s: Container): (r: Outcome)
    requires Valid(u, s)
    ensures r.Pass? <==> AllMocksRequired(cfg, s)
    ensures r.Fail? ==> r.error.UnusedMock? && UnusedMockAt(cfg, s, r.error.role)
  {
    CheckMocks(u, cfg, s, 0)
  }

  /** `verifyImplementationWiring`: completeness first, then necessity. */
  function VerifyImplementationWiring(u: Universe, cfg: Config, s: Container, value: FieldValues): (r: Outcome)
    requires Valid(u, s)
    ensures r.Pass? <==> AllSupplied(u, cfg, s, value) && AllMocksRequired(cfg, s)
    ensures r.Fail? && r.error.UnusedMock? ==> AllSupplied(u, cfg, s, value)
    ensures !AllSupplied(u, cfg, s, value) ==> r.Fail? && exists k, f :: (MissesDependency(u, cfg, s, value, k, f)
      && r.error == MissingDependency(s.instances[k].cls, f.name, f.fieldType))
    ensures r.Fail? && AllSupplied(u, cfg, s, value) ==> r.error.UnusedMock? && UnusedMockAt(cfg, s, r.error.role)
  {
    match VerifySupplied(u, cfg, s, value)
    case Fail(e) => Fail(e)
    case Pass => VerifyMocksAreRequired(u, cfg, s)
  }
}

=== FILE: wiring.dfy ===
/** The wiring engine: the push phase offers existing instances to a new
    stub's setters, the pull phase offers a newly available role to the
    setters of every instance stored under a non-interface key.

    A setter's body is unknown, so invoking it is modelled as appending a
    `Call` to the log; `set` also records the setter's parameter type in
    `injected`. Entries are visited in ascending type id, a stub's
    characteristic interfaces in declaration order and methods in their
    listed order. The source leaves that order unspecified. Contracts that
    equate the log with a sequence hold for this fixed order only; the
    order-independent statements are the membership lemmas `PullPhaseCalls`,
    `WireStubCalls`, `WireMockCalls` and `WireMocksCalls`. */
module Wiring {
  import opened TypeUniverse
  import opened Characteristic
  import opened Registry

  /** Appending to a log is associative. */
  lemma AppendAssoc<T>(a: seq<T>, b: seq<T>, c: seq<T>)
    ensures (a + b) + c == a + (b + c)
  {
  }

  /** `set`: invoke the setter and record its parameter type as injected. */
  function Invoke(s: Container, c: Call): (r: Container)
    requires IsSetter(c.setter)
    ensures r.instances == s.instances && r.implementations == s.implementations
    ensures r.log == s.log + [c]
    ensures r.injected == s.injected + {c.setter.params[0]}
  {
    s.(log := s.log + [c], injected := s.injected + {c.setter.params[0]})
  }

  /** The parameter types a sequence of setter calls injects. */
  function InjectedBy(calls: seq<Call>): set<TypeId> {
    set c | c in calls && IsSetter(c.setter) :: c.setter.params[0]
  }

  /** `s'` extends the log of `s`, and injects exactly the parameter types
      of the calls it added. */
  predicate Accounts(s: Container, s': Container) {
    s.log <= s'.log && s'.injected == s.injected + InjectedBy(s'.log[|s.log|..])
  }

  lemma AccountsTrans(s: Container, s1: Container, s2: Container)
    requires Accounts(s, s1) && Accounts(s1, s2)
    ensures Accounts(s, s2)
  {
    assert s2.log[|s.log|..] == s1.log[|s.log|..] + s2.log[|s1.log|..];
    InjectedByAppend(s1.log[|s.log|..], s2.log[|s1.log|..]);
  }

  /** The parameter types injected by two batches of calls are those of
      each batch. */
  lemma InjectedByAppend(a: seq<Call>, b: seq<Call>)
    ensures InjectedBy(a + b) == InjectedBy(a) + InjectedBy(b)
  {
  }

  function InvokeAll(s: Container, calls: seq<Call>): (r: Container)
    requires forall c | c in calls :: IsSetter(c.setter)
    ensures r.instances == s.instances && r.implementations == s.implementations
    ensures r.log == s.log + calls
    ensures r.injected == s.injected + InjectedBy(calls)
    decreases |calls|
  {
    if calls == [] then s
    else
      var r := InvokeAll(Invoke(s, calls[0]), calls[1..]);
      assert calls == [calls[0]] + calls[1..];
      AppendAssoc(s.log, [calls[0]], calls[1..]);
      r
  }

  // ---------------------------------------------------------------- push

  /** A call the push phase of `target` makes: one of its setters, given
      the instance its parameter type currently resolves to. */
  predicate IsPushCall(u: Universe, s: Container, target: Obj, c: Call) {
    && c.target == target
    && c.setter in Methods(u, target.cls)
    && IsSetter(c.setter)
    && ImplementationFor(s, c.setter.params[0]) == Some(c.argument)
  }

  function PushCalls(instances: map<TypeId, Obj>, implementations: map<TypeId, TypeId>, target: Obj, ms: seq<Method>)
    : (r: seq<Call>)
    ensures forall c | c in r :: IsSetter(c.setter)
    ensures forall c :: c in r <==>
      c.target == target && c.setter in ms && IsSetter(c.setter)
      && Resolve(instances, implementations, c.setter.params[0]) == Some(c.argument)
  {
    if ms == [] then []
    else
      var m := ms[0];
      var here :=
        if IsSetter(m) && Resolve(instances, implementations, m.params[0]).Some? then
          [Call(target, m, Resolve(instances, implementations, m.params[0]).value)]
        else [];
      here + PushCalls(instances, implementations, target, ms[1..])
  }

  // ---------------------------------------------------------------- pull

  /** A call the pull phase for `role` makes: a setter for exactly `role`,
      on an instance stored under a non-interface key at or above `from`,
      given `arg`. */
  ghost predicate IsPullCallFrom(u: Universe, instances: map<TypeId, Obj>, role: TypeId, arg: Obj, c: Call, from: nat) {
    && c.argument == arg
    && IsSetterForType(c.setter, role)
    && c.setter in Methods(u, c.target.cls)
    && exists key: nat :: from <= key < |u.types| && key in instances
         && !IsInterface(u, key) && instances[key] == c.target
  }

  ghost predicate IsPullCall(u: Universe, instances: map<TypeId, Obj>, role: TypeId, arg: Obj, c: Call) {
    IsPullCallFrom(u, instances, role, arg, c, 0)
  }

  /** The setters of `target` (listed in `ms`) that take exactly `role`. */
  function OfferCalls(target: Obj, ms: seq<Method>, role: TypeId, arg: Obj): (r: seq<Call>)
    ensures forall c :: c in r <==>
      c.target == target && c.argument == arg && c.setter in ms && IsSetterForType(c.setter, role)
  {
    if ms == [] then []
    else
      var here := if IsSetterForType(ms[0], role) then [Call(target, ms[0], arg)] else [];
      here + OfferCalls(target, ms[1..], role, arg)
  }

  /** The pull phase's calls, visiting the entries keyed `from` upwards. */
  function PullCalls(u: Universe, instances: map<TypeId, Obj>, role: TypeId, arg: Obj, from: nat): (r: seq<Call>)
    ensures forall c | c in r :: c.argument == arg && IsSetterForType(c.setter, role)
    decreases |u.types| - from
  {
    if from >= |u.types| then []
    else
      var here :=
        if from in instances && !IsInterface(u, from) then
          OfferCalls(instances[from], Methods(u, instances[from].cls), role, arg)
        else [];
      here + PullCalls(u, instances, role, arg, from + 1)
  }

  lemma {:induction false} PullCallsSpec(u: Universe, instances: map<TypeId, Obj>, role: TypeId, arg: Obj, from: nat)
    ensures forall c :: c in PullCalls(u, instances, role, arg, from) <==>
      IsPullCallFrom(u, instances, role, arg, c, from)
    decreases |u.types| - from
  {
    if from < |u.types| {
      PullCallsSpec(u, instances, role, arg, from + 1);
      var here :=
        if from in instances && !IsInterface(u, from) then
          OfferCalls(instances[from], Methods(u, instances[from].cls), role, arg)
        else [];
      var rest := PullCalls(u, instances, role, arg, from + 1);
      assert PullCalls(u, instances, role, arg, from) == here + rest;
      forall c | c in here
        ensures IsPullCallFrom(u, instances, role, arg, c, from)
      {
        assert from <= from < |u.types| && from in instances
          && !IsInterface(u, from) && instances[from] == c.target;
      }
      forall c | IsPullCallFrom(u, instances, role, arg, c, from)
        ensures c in here + rest
      {
        var key: nat :| from <= key < |u.types| && key in instances
          && !IsInterface(u, key) && instances[key] == c.target;
        if key > from {
          assert IsPullCallFrom(u, instances, role, arg, c, from + 1);
        }
      }
    }
  }

  /** No setter for `role` among `ms`: nothing is offered. */
  lemma {:induction false} NoOfferCalls(target: Obj, ms: seq<Method>, role: TypeId, arg: Obj)
    requires forall m | m in ms :: !IsSetterForType(m, role)
    ensures OfferCalls(target, ms, role, arg) == []
  {
    if ms != [] {
      NoOfferCalls(target, ms[1..], role, arg);
    }
  }

  /** When no instance under a non-interface key has a setter for `role`,
      the pull phase for `role` makes no call at all. */
  lemma {:induction false} NoPullCalls(u: Universe, instances: map<TypeId, Obj>, role: TypeId, arg: Obj, from: nat)
    requires forall k, m | k in instances && !IsInterface(u, k) && m in Methods(u, instances[k].cls) ::
      !IsSetterForType(m, role)
    ensures PullCalls(u, instances, role, arg, from) == []
    decreases |u.types| - from
  {
    if from < |u.types| {
      NoPullCalls(u, instances, role, arg, from + 1);
      if from in instances && !IsInterface(u, from) {
        NoOfferCalls(instances[from], Methods(u, instances[from].cls), role, arg);
      }
    }
  }

  /** `wireInstancesWithType`: resolve `role` (failing when it does not
      resolve) and offer the instance to every matching setter of every
      instance stored under a non-interface key. */
  function WireInstancesWithType(u: Universe, s: Container, role: TypeId): (r: Result<Container>)
    ensures r.Err? <==> ImplementationFor(s, role).None?
    ensures r.Err? ==> r.error == MissingWiring(role)
    ensures r.Ok? ==> r.value.instances == s.instances && r.value.implementations == s.implementations
    ensures r.Ok? ==> r.value.log == s.log + PullCalls(u, s.instances, role, ImplementationFor(s, role).value, 0)
    ensures r.Ok? ==> (|r.value.log| == |s.log| ==> r.value.injected == s.injected)
    ensures r.Ok? ==> (|r.value.log| > |s.log| ==> r.value.injected == s.injected + {role})
  {
    var arg :- Get(s, role);
    var calls := PullCalls(u, s.instances, role, arg, 0);
    assert |calls| > 0 ==> calls[0] in calls;
    Ok(InvokeAll(s, calls))
  }

  /** A pull phase injects exactly the parameter types of the setters it
      called. */
  lemma PullPhaseInjects(u: Universe, s: Container, role: TypeId)
    requires ImplementationFor(s, role).Some?
    ensures var s' := WireInstancesWithType(u, s, role).value;
      Accounts(s, s')
  {
  }

  /** The pull phase for `role` invokes exactly the setters for `role` of
      the instances stored under non-interface keys, each with the instance
      `role` resolves to. */
  lemma PullPhaseCalls(u: Universe, s: Container, role: TypeId)
    requires ImplementationFor(s, role).Some?
    ensures var s' := WireInstancesWithType(u, s, role).value;
      forall c :: c in s'.log[|s.log|..] <==>
        IsPullCall(u, s.instances, role, ImplementationFor(s, role).value, c)
  {
    var s' := WireInstancesWithType(u, s, role).value;
    assert s'.log[|s.log|..] == PullCalls(u, s.instances, role, ImplementationFor(s, role).value, 0);
    PullCallsSpec(u, s.instances, role, ImplementationFor(s, role).value, 0);
  }

  /** The calls of the pull phases for `roles`, one after the other. */
  function PullLog(u: Universe, instances: map<TypeId, Obj>, implementations: map<TypeId, TypeId>, roles: seq<TypeId>)
    : seq<Call>
  {
    if roles == [] then []
    else
      var first :=
        match Resolve(instances, implementations, roles[0])
        case None => []
        case Some(arg) => PullCalls(u, instances, roles[0], arg, 0);
      first + PullLog(u, instances, implementations, roles[1..])
  }

  /** The pull phase run for each role in turn; it stops at the first role
      that does not resolve. */
  function PullEach(u: Universe, s: Container, roles: seq<TypeId>): (r: Result<Container>)
    ensures r.Err? <==> exists i :: i in roles && ImplementationFor(s, i).None?
    ensures r.Err? ==> r.error.MissingWiring? && r.error.role in roles
    ensures r.Ok? ==> r.value.instances == s.instances && r.value.implementations == s.implementations
    ensures r.Ok? ==> r.value.log == s.log + PullLog(u, s.instances, s.implementations, roles)
    ensures r.Ok? ==> s.injected <= r.value.injected <= s.injected + (set i | i in roles)
    ensures r.Ok? ==> Accounts(s, r.value)
    decreases |roles|
  {
    if roles == [] then
      assert s.log[|s.log|..] == [];
      Ok(s)
    else
      var s1 :- WireInstancesWithType(u, s, roles[0]);
      PullPhaseInjects(u, s, roles[0]);
      assert forall i :: i in roles <==> i == roles[0] || i in roles[1..];
      AppendAssoc(s.log, PullCalls(u, s.instances, roles[0], ImplementationFor(s, roles[0]).value, 0),
        PullLog(u, s.instances, s.implementations, roles[1..]));
      var r := PullEach(u, s1, roles[1..]);
      if r.Ok? then
        AccountsTrans(s, s1, r.value);
        r
      else r
  }

  /** The pull phases' calls are exactly the pull calls of one of the roles. */
  lemma {:induction false} PullLogSpec(u: Universe, instances: map<TypeId, Obj>, implementations: map<TypeId, TypeId>, roles: seq<TypeId>)
    requires forall i | i in roles :: Resolve(instances, implementations, i).Some?
    ensures forall c :: c in PullLog(u, instances, implementations, roles) <==>
      exists i :: i in roles && c in PullCalls(u, instances, i, Resolve(instances, implementations, i).value, 0)
    decreases |roles|
  {
    if roles != [] {
      PullLogSpec(u, instances, implementations, roles[1..]);
      assert forall i :: i in roles <==> i == roles[0] || i in roles[1..];
    }
  }

  /** The roles a new stub is offered under, in the order the pull phases
      visit them: its characteristic interfaces, then its own class. */
  function PullOrder(u: Universe, impl: TypeId): (r: seq<TypeId>)
    requires WellFormed(u)
    ensures forall i :: i in r <==> i in StubRoles(u, impl)
  {
    CharacteristicOrder(u, impl) + [impl]
  }

  /** The calls wiring a registered stub makes: push, then pull. */
  function StubWiringLog(u: Universe, s: Container, obj: Obj): seq<Call>
    requires WellFormed(u)
  {
    PushCalls(s.instances, s.implementations, obj, Methods(u, obj.cls))
      + PullLog(u, s.instances, s.implementations, PullOrder(u, obj.cls))
  }

  /** `wireInstancesWithImplementation`: the push phase on the new stub,
      then the pull phase for each of its characteristic interfaces and
      finally for its own class. */
  function WireInstancesWithImplementation(u: Universe, s: Container, obj: Obj): (r: Result<Container>)
    requires WellFormed(u)
    ensures r.Err? <==> exists i :: i in StubRoles(u, obj.cls) && ImplementationFor(s, i).None?
    ensures r.Ok? ==> r.value.instances == s.instances && r.value.implementations == s.implementations
    ensures r.Ok? ==> r.value.log == s.log + StubWiringLog(u, s, obj)
    ensures r.Ok? ==> s.injected <= r.value.injected
    ensures r.Ok? ==> forall t | t in r.value.injected :: t in s.injected || ImplementationFor(s, t).Some?
    ensures r.Ok? ==> Accounts(s, r.value)
  {
    var calls := PushCalls(s.instances, s.implementations, obj, Methods(u, obj.cls));
    var pushed := InvokeAll(s, calls);
    var roles := PullOrder(u, obj.cls);
    AppendAssoc(s.log, calls, PullLog(u, s.instances, s.implementations, roles));
    var r := PullEach(u, pushed, roles);
    if r.Ok? then
      assert pushed.log[|s.log|..] == calls;
      AccountsTrans(s, pushed, r.value);
      r
    else r
  }

  /** `wireStub` given an instance: register it, then wire it both ways. */
  function WireStub(u: Universe, s: Container, obj: Obj): (r: Result<Container>)
    requires WellFormed(u) && Valid(u, s)
    requires Known(u, obj.cls) && !IsInterface(u, obj.cls)
    ensures r.Err? <==> obj.cls in s.implementations
    ensures r.Err? ==> r.error == DuplicateRegistration(obj.cls)
    ensures r.Ok? ==> Valid(u, r.value)
    ensures r.Ok? ==> r.value.instances == RegisterImplementation(u, s, obj).value.instances
    ensures r.Ok? ==> r.value.implementations == RegisterImplementation(u, s, obj).value.implementations
    ensures r.Ok? ==> s.injected <= r.value.injected
    ensures r.Ok? ==> forall i | i in StubRoles(u, obj.cls) :: ImplementationFor(r.value, i) == Some(obj)
    ensures r.Ok? ==> r.value.log == s.log + StubWiringLog(u, r.value, obj)
    ensures r.Ok? ==> Accounts(s, r.value)
  {
    var s1 :- RegisterImplementation(u, s, obj);
    RegisterImplementationValid(u, s, obj);
    assert forall i :: i in StubRoles(u, obj.cls) ==> ImplementationFor(s1, i) == Some(obj);
    WireInstancesWithImplementation(u, s1, obj)
  }

  /** Once a stub resolves under all its roles, its wiring calls are its push
      calls and the pull calls offering it under each of those roles. */
  lemma StubWiringLogSpec(u: Universe, s: Container, obj: Obj)
    requires WellFormed(u)
    requires forall i | i in StubRoles(u, obj.cls) :: ImplementationFor(s, i) == Some(obj)
    ensures forall c :: c in StubWiringLog(u, s, obj) <==>
      || IsPushCall(u, s, obj, c)
      || exists i :: i in StubRoles(u, obj.cls) && IsPullCall(u, s.instances, i, obj, c)
  {
    var roles := PullOrder(u, obj.cls);
    var pushed := PushCalls(s.instances, s.implementations, obj, Methods(u, obj.cls));
    var pulled := PullLog(u, s.instances, s.implementations, roles);
    PullLogSpec(u, s.instances, s.implementations, roles);
    forall i | i in roles {
      PullCallsSpec(u, s.instances, i, obj, 0);
    }
    forall c
      ensures c in pulled <==> exists i :: i in StubRoles(u, obj.cls) && IsPullCall(u, s.instances, i, obj, c)
    {
      if c in pulled {
        var i :| i in roles && c in PullCalls(u, s.instances, i, Resolve(s.instances, s.implementations, i).value, 0);
        assert IsPullCall(u, s.instances, i, obj, c);
      }
      if exists i :: i in StubRoles(u, obj.cls) && IsPullCall(u, s.instances, i, obj, c) {
        var i :| i in StubRoles(u, obj.cls) && IsPullCall(u, s.instances, i, obj, c);
        assert c in PullCalls(u, s.instances, i, Resolve(s.instances, s.implementations, i).value, 0);
      }
    }
  }

  /** The calls wiring a stub makes: its push calls (with the stub itself
      already registered) and the pull calls offering it under each of its
      roles. */
  lemma WireStubCalls(u: Universe, s: Container, obj: Obj)
    requires WellFormed(u) && Valid(u, s)
    requires Known(u, obj.cls) && !IsInterface(u, obj.cls)
    requires obj.cls !in s.implementations
    ensures var s' := WireStub(u, s, obj).value;
      forall c :: c in s'.log[|s.log|..] <==>
        || IsPushCall(u, s', obj, c)
        || exists i :: i in StubRoles(u, obj.cls) && IsPullCall(u, s'.instances, i, obj, c)
  {
    var s' := WireStub(u, s, obj).value;
    assert s'.log[|s.log|..] == StubWiringLog(u, s', obj);
    StubWiringLogSpec(u, s', obj);
  }

  /** `wireMock`: make sure a mock exists, then offer whatever `mocked`
      resolves to to every matching setter. A mock is a leaf: it is never
      pushed into. */
  function WireMock(u: Universe, cfg: Config, s: Container, mocked: TypeId): (r: Result<(Container, Obj)>)
    requires Valid(u, s) && Known(u, mocked)
    ensures r.Err? <==> mocked !in s.instances && mocked in s.implementations
    ensures r.Err? ==> r.error == RoleConflict(mocked, s.implementations[mocked])
    ensures r.Ok? ==> Valid(u, r.value.0)
    ensures r.Ok? ==> r.value.1 == if mocked in s.instances then s.instances[mocked] else cfg.mock(mocked)
    ensures r.Ok? ==> r.value.0.instances == s.instances[mocked := r.value.1]
    ensures r.Ok? && mocked in s.instances ==> r.value.0.implementations == s.implementations
    ensures r.Ok? && mocked !in s.instances ==> r.value.0.implementations == s.implementations[mocked := mocked]
    ensures r.Ok? ==> (r.value.0.injected ==
      if |r.value.0.log| > |s.log| then s.injected + {mocked} else s.injected)
    ensures r.Ok? ==> ImplementationFor(r.value.0, mocked).Some?
    ensures r.Ok? ==> var s' := r.value.0;
      s'.log == s.log + PullCalls(u, s'.instances, mocked, ImplementationFor(s', mocked).value, 0)
  {
    var (s1, obj) :- EnsureMock(cfg, s, mocked);
    EnsureMockStep(u, cfg, s, mocked);
    var r := WireInstancesWithType(u, s1, mocked);
    Ok((r.value, obj))
  }

  /** The calls `wireMock` makes are the pull calls for the mocked type. The
      argument is whatever the type resolves to, which is a stub rather than
      the mock when a stub has since taken the mocked interface as a role. */
  lemma WireMockCalls(u: Universe, cfg: Config, s: Container, mocked: TypeId)
    requires Valid(u, s) && Known(u, mocked)
    requires mocked in s.instances || mocked !in s.implementations
    ensures var s' := WireMock(u, cfg, s, mocked).value.0;
      forall c :: c in s'.log[|s.log|..] <==>
        IsPullCall(u, s'.instances, mocked, ImplementationFor(s', mocked).value, c)
  {
    var s' := WireMock(u, cfg, s, mocked).value.0;
    assert s'.log[|s.log|..] == PullCalls(u, s'.instances, mocked, ImplementationFor(s', mocked).value, 0);
    PullCallsSpec(u, s'.instances, mocked, ImplementationFor(s', mocked).value, 0);
  }

  /** What one successful `ensureMockExisits` does to the maps. */
  lemma EnsureMockStep(u: Universe, cfg: Config, s: Container, t: TypeId)
    requires Valid(u, s) && Known(u, t)
    requires t in s.instances || t !in s.implementations
    ensures var s1 := EnsureMock(cfg, s, t).value.0;
      && Valid(u, s1)
      && (t !in s.instances ==> t !in s.implementations)
      && s1.instances == (if t in s.instances then s.instances else s.instances[t := cfg.mock(t)])
      && s1.implementations == (if t in s.instances then s.implementations else s.implementations[t := t])
      && s1.injected == s.injected && s1.log == s.log
  {
    if t !in s.instances {
      RegisterMockValid(u, s, cfg.mock(t), t);
    }
  }

  /** Registers every mock first and only then wires them, so each pull
      phase sees all of them. */
  function EnsureMocks(cfg: Config, s: Container, ts: seq<TypeId>): (r: Result<Container>)
    ensures r.Err? ==> r.error.RoleConflict? && r.error.mocked in ts
    ensures r.Ok? ==> forall t | t in ts :: t in r.value.instances
    ensures r.Ok? ==> forall k | k in s.instances :: k in r.value.instances && r.value.instances[k] == s.instances[k]
    ensures r.Ok? ==> forall k | k in r.value.instances && k !in s.instances :: k in ts && r.value.instances[k] == cfg.mock(k)
    ensures r.Ok? ==> r.value.injected == s.injected && r.value.log == s.log
    decreases |ts|
  {
    if ts == [] then Ok(s)
    else
      var (s1, _) :- EnsureMock(cfg, s, ts[0]);
      var r := EnsureMocks(cfg, s1, ts[1..]);
      assert forall t :: t in ts <==> t == ts[0] || t in ts[1..];
      r
  }

  /** Registering the batch keeps the registry invariant. */
  lemma {:induction false} EnsureMocksValid(u: Universe, cfg: Config, s: Container, ts: seq<TypeId>)
    requires Valid(u, s) && forall t | t in ts :: Known(u, t)
    requires EnsureMocks(cfg, s, ts).Ok?
    ensures Valid(u, EnsureMocks(cfg, s, ts).value)
    decreases |ts|
  {
    if ts != [] {
      EnsureMockStep(u, cfg, s, ts[0]);
      EnsureMocksValid(u, cfg, EnsureMock(cfg, s, ts[0]).value.0, ts[1..]);
    }
  }

  /** Under the invariant the batch fails exactly when one of its types is
      not stored yet but already bound as a role (to another type). */
  lemma {:induction false} EnsureMocksFails(u: Universe, cfg: Config, s: Container, ts: seq<TypeId>)
    requires Valid(u, s) && forall t | t in ts :: Known(u, t)
    ensures EnsureMocks(cfg, s, ts).Err? <==> exists t :: t in ts && t !in s.instances && t in s.implementations
    decreases |ts|
  {
    if ts != [] {
      var t0 := ts[0];
      assert forall t :: t in ts <==> t == t0 || t in ts[1..];
      if EnsureMock(cfg, s, t0).Ok? {
        EnsureMockStep(u, cfg, s, t0);
        var s1 := EnsureMock(cfg, s, t0).value.0;
        EnsureMocksFails(u, cfg, s1, ts[1..]);
        assert forall t :: t != t0 ==> (t in s1.instances <==> t in s.instances);
        assert forall t :: t != t0 ==> (t in s1.implementations <==> t in s.implementations);
      }
    }
  }

  /** `wireMocks`: every mock created first, then every one wired. */
  function WireMocks(u: Universe, cfg: Config, s: Container, ts: seq<TypeId>): (r: Result<Container>)
    requires Valid(u, s) && forall t | t in ts :: Known(u, t)
    ensures r.Err? <==> exists t :: t in ts && t !in s.instances && t in s.implementations
    ensures r.Ok? ==> Valid(u, r.value)
    ensures r.Ok? ==> forall t :: t in ts ==> t in r.value.instances
    ensures r.Ok? ==> forall k :: k in s.instances ==>
      k in r.value.instances && r.value.instances[k] == s.instances[k]
    ensures r.Ok? ==> s.injected <= r.value.injected
    ensures r.Ok? ==> r.value.log == s.log + PullLog(u, r.value.instances, r.value.implementations, ts)
    ensures r.Ok? ==> Accounts(s, r.value)
  {
    EnsureMocksFails(u, cfg, s, ts);
    var s1 :- EnsureMocks(cfg, s, ts);
    EnsureMocksValid(u, cfg, s, ts);
    assert forall t :: t in ts ==> ImplementationFor(s1, t).Some?;
    var r := PullEach(u, s1, ts);
    assert r.Ok? && Valid(u, r.value);
    r
  }

  /** Every pull phase of the batch sees every mock of the batch: the calls
      are the pull calls for each batch type, over the final instances. */
  lemma WireMocksCalls(u: Universe, cfg: Config, s: Container, ts: seq<TypeId>)
    requires Valid(u, s) && forall t | t in ts :: Known(u, t)
    requires forall t | t in ts :: t in s.instances || t !in s.implementations
    ensures var s' := WireMocks(u, cfg, s, ts).value;
      forall c :: c in s'.log[|s.log|..] <==>
        exists t :: t in ts && IsPullCall(u, s'.instances, t, ImplementationFor(s', t).value, c)
  {
    var s' := WireMocks(u, cfg, s, ts).value;
    assert forall t :: t in ts ==> Resolve(s'.instances, s'.implementations, t).Some?;
    assert s'.log[|s.log|..] == PullLog(u, s'.instances, s'.implementations, ts);
    PullLogSpec(u, s'.instances, s'.implementations, ts);
    forall t | t in ts {
      PullCallsSpec(u, s'.instances, t, ImplementationFor(s', t).value, 0);
    }
  }

  /** The errors `wire` can raise for one of `ts`: a mocked interface bound
      to another type, a class already registered, or a failed construction. */
  predicate WireError(e: Error, ts: seq<TypeId>) {
    || (e.RoleConflict? && e.mocked in ts)
    || (e.DuplicateRegistration? && e.impl in ts)
    || (e.InstantiationFailure? && e.impl in ts)
  }

  /** `wire(Class)`: an interface is mocked; a class is instantiated with
      its no-argument constructor (`instantiate` yields the new object's
      identity, or `None` when construction fails) and wired as a stub. The
      result is the instance then stored under `t`. */
  function Wire(u: Universe, cfg: Config, instantiate: TypeId -> Option<nat>, s: Container, t: TypeId)
    : (r: Result<(Container, Obj)>)
    requires WellFormed(u) && Valid(u, s) && Known(u, t)
    ensures r.Err? <==>
      if IsInterface(u, t) then t !in s.instances && t in s.implementations
      else instantiate(t).None? || t in s.implementations
    ensures r.Err? && !IsInterface(u, t) && instantiate(t).None? ==> r.error == InstantiationFailure(t)
    ensures r.Err? ==> WireError(r.error, [t])
    ensures r.Ok? ==> Valid(u, r.value.0) && s.injected <= r.value.0.injected
    ensures r.Ok? ==> t in r.value.0.instances && r.value.0.instances[t] == r.value.1
    ensures r.Ok? ==> forall k :: k in s.instances ==>
      k in r.value.0.instances && r.value.0.instances[k] == s.instances[k]
    ensures r.Ok? ==> s.log <= r.value.0.log
    ensures r.Ok? ==> Accounts(s, r.value.0)
  {
    if IsInterface(u, t) then
      var r := WireMock(u, cfg, s, t);
      if r.Ok? then
        WireMockInjects(u, cfg, s, t);
        r
      else r
    else
      match instantiate(t)
      case None => Err(InstantiationFailure(t))
      case Some(id) =>
        var obj := Obj(id, t);
        var s1 :- WireStub(u, s, obj);
        Ok((s1, obj))
  }

  /** `wire(Class)` wires what it stores: an interface's pull phase runs
      with whatever the interface resolves to, and a class's new instance
      resolves under all its roles and is pushed into and pulled from. */
  lemma WireWires(u: Universe, cfg: Config, instantiate: TypeId -> Option<nat>, s: Container, t: TypeId)
    requires WellFormed(u) && Valid(u, s) && Known(u, t)
    requires IsInterface(u, t) ==> t in s.instances || t !in s.implementations
    requires !IsInterface(u, t) ==> instantiate(t).Some? && t !in s.implementations
    ensures Wire(u, cfg, instantiate, s, t).Ok?
    ensures IsInterface(u, t) ==> var s' := Wire(u, cfg, instantiate, s, t).value.0;
      && ImplementationFor(s', t).Some?
      && s'.log == s.log + PullCalls(u, s'.instances, t, ImplementationFor(s', t).value, 0)
    ensures !IsInterface(u, t) ==> var (s', obj) := Wire(u, cfg, instantiate, s, t).value;
      && obj == Obj(instantiate(t).value, t)
      && (forall i | i in StubRoles(u, t) :: ImplementationFor(s', i) == Some(obj))
      && s'.log == s.log + StubWiringLog(u, s', obj)
  {
  }

  /** `wireMock` injects exactly the parameter types of the setters it
      called: the mocked type, when some setter took it. */
  lemma WireMockInjects(u: Universe, cfg: Config, s: Container, mocked: TypeId)
    requires Valid(u, s) && Known(u, mocked)
    requires mocked in s.instances || mocked !in s.implementations
    ensures var s' := WireMock(u, cfg, s, mocked).value.0;
      Accounts(s, s')
  {
    var s' := WireMock(u, cfg, s, mocked).value.0;
    var calls := s'.log[|s.log|..];
    assert calls == PullCalls(u, s'.instances, mocked, ImplementationFor(s', mocked).value, 0);
    if |calls| > 0 {
      assert calls[0] in calls;
    }
  }

  /** `wire(Class...)`: each type in turn. */
  function WireAll(u: Universe, cfg: Config, instantiate: TypeId -> Option<nat>, s: Container, ts: seq<TypeId>)
    : (r: Result<Container>)
    requires WellFormed(u) && Valid(u, s) && forall t | t in ts :: Known(u, t)
    ensures r.Ok? ==> Valid(u, r.value) && s.injected <= r.value.injected
    ensures r.Ok? ==> forall t :: t in ts ==> t in r.value.instances
    ensures r.Ok? ==> forall k :: k in s.instances ==>
      k in r.value.instances && r.value.instances[k] == s.instances[k]
    ensures r.Ok? ==> s.log <= r.value.log
    ensures r.Ok? ==> Accounts(s, r.value)
    ensures ts == [] ==> r == Ok(s)
    ensures ts != [] && Wire(u, cfg, instantiate, s, ts[0]).Err? ==> r == Err(Wire(u, cfg, instantiate, s, ts[0]).error)
    ensures r.Err? ==> WireError(r.error, ts)
    decreases |ts|
  {
    if ts == [] then
      assert s.log[|s.log|..] == [];
      Ok(s)
    else
      var (s1, _) :- Wire(u, cfg, instantiate, s, ts[0]);
      assert forall t :: t in ts[1..] ==> t in ts;
      var r := WireAll(u, cfg, instantiate, s1, ts[1..]);
      if r.Ok? then
        AccountsTrans(s, s1, r.value);
        r
      else r
  }

  /** What `wireStub` may be handed: an object, or a `Class` object. */
  datatype Bean = Instance(obj: Obj) | ClassLiteral(t: TypeId)

  /** `wireStub`: a `Class` object is passed on to `wire` and the result is
      `null` (`None`); an object is wired as a stub and returned. */
  function WireStubBean(u: Universe, cfg: Config, instantiate: TypeId -> Option<nat>, s: Container, bean: Bean)
    : (r: Result<(Container, Option<Obj>)>)
    requires WellFormed(u) && Valid(u, s)
    requires bean.Instance? ==> Known(u, bean.obj.cls) && !IsInterface(u, bean.obj.cls)
    requires bean.ClassLiteral? ==> Known(u, bean.t)
    ensures r.Ok? ==> Valid(u, r.value.0) && s.injected <= r.value.0.injected
    ensures r.Ok? ==> r.value.1 == if bean.Instance? then Some(bean.obj) else None
    ensures bean.Instance? ==> (r.Err? <==> bean.obj.cls in s.implementations)
    ensures bean.ClassLiteral? ==> (r.Err? <==>
      if IsInterface(u, bean.t) then bean.t !in s.instances && bean.t in s.implementations
      else instantiate(bean.t).None? || bean.t in s.implementations)
    ensures r.Ok? && bean.ClassLiteral? ==> bean.t in r.value.0.instances
    ensures r.Ok? && bean.Instance? ==>
      bean.obj.cls in r.value.0.instances && r.value.0.instances[bean.obj.cls] == bean.obj
    ensures r.Ok? && bean.Instance? ==>
      && (forall i | i in StubRoles(u, bean.obj.cls) :: ImplementationFor(r.value.0, i) == Some(bean.obj))
      && r.value.0.log == s.log + StubWiringLog(u, r.value.0, bean.obj)
    ensures r.Ok? ==> forall k :: k in s.instances ==>
      k in r.value.0.instances && r.value.0.instances[k] == s.instances[k]
    ensures r.Ok? ==> s.log <= r.value.0.log
    ensures r.Ok? ==> Accounts(s, r.value.0)
  {
    match bean
    case ClassLiteral(t) =>
      var (s1, _) :- Wire(u, cfg, instantiate, s, t);
      Ok((s1, None))
    case Instance(obj) =>
      var s1 :- WireStub(u, s, obj);
      Ok((s1, Some(obj)))
  }
}
